=== FILE: README.md ===
# coredns-nftables bookkeeping, modelled in Dafny

The coredns-nftables plugin copies the addresses of A and AAAA answers into
nftables sets. Around the netlink calls sits a small amount of sequential
bookkeeping, and that is what this project models and proves things about:

- the **connection pool** (`NewCache`, `CloseCache`, `ClearCache`): a FIFO queue
  of engine connections, reused while younger than the connection timeout,
  torn down when older or after an engine error;
- the **recency cache** (`LruIgnoreIp`, `LruUpdateIp`, `gc`): a bounded LRU map
  per connection from address text to an expiry time and an apply count,
  used as a soft retry threshold;
- the **table metadata cache** (`MutableNftablesTable`): lists a family's
  tables at most once and creates a missing table once;
- the **dispatcher** (`ServeWorker`, the A/AAAA check of `ServeDNS`,
  `MutableRuleSet`): maps each answer to table families, checks the
  threshold once, fans out to every configured rule without stopping at
  errors, and records the pass only when no rule failed.

Everything is a pure function over immutable values. Time is an `int` in
nanoseconds, passed in as `now`. The engine is an oracle: whether connecting,
flushing or adding elements succeeds is a `bool` input, and what a table
listing returns is an `Option<seq<Table>>` input. Every engine call is appended
to a call log (`Engine.calls`), so the proofs can count calls. The rule
applier, whose source is not part of this model, is a function
`(Engine, Rule, Family, Record) -> ApplyResult`. It may change the
connection's engine state (tables, error flag, call log). It cannot reach the
recency cache. Connection identity (a pointer in the program) is an `id`
drawn from `Pool.nextId`. Teardown appends the connection to `Pool.destroyed`.

Files (one module each): `wrappers.dfy` (Option/Result/Outcome), `config.dfy`
(the tunables of `nftables_cache.go` lines 18-21 and their defaults),
`lru.dfy` (the LRU map the plugin relies on), `records.dfy` (answer records),
`recency.dfy`, `tables.dfy`, `pool.dfy` (module `ConnectionPool`), `dispatch.dfy`.

Three behaviours of the code are easy to miss, and the model keeps them:
- `CloseCache` always returns nil. A flush failure only marks the connection and is never reported to the caller.
- `LruIgnoreIp` looks the address up with the LRU's `Get`. That lookup makes the address the most recently used key even when the answer is "not ignored". So the threshold lookup reorders the cache, and an error pass leaves the entries unchanged but not necessarily their order.
- The connection-reuse identity holds only when no other young connection is queued. The queue is FIFO, so a returned connection goes behind any that are already waiting (`ReuseIdentity` requires that nothing else is queued).

## Model

| member | source | states |
|---|---|---|
| Lru.Get | nftables_cache.go:100-102 | a lookup of a present key returns its entry, changes no entry, and moves the key to the most recently used end while every other key keeps its relative order; a lookup of a missing key returns nothing and changes nothing |
| Lru.Add | nftables_cache.go:132-135 | after an insert the key holds the new entry and is the most recently used one; an existing key moves to the end with the others in their old order; a new key is appended, and added to a full cache it evicts exactly the least recently used key (the front of the order); the size stays within the capacity |
| Lru.New | nftables_cache.go:67 | the cache exists exactly when the configured capacity is positive, and it starts empty with that capacity |
| Lru.SizeBound | nftables_cache.go:67 | a well-formed cache never holds more entries than the capacity it was created with |
| Records.KeyOf | nftables_cache.go:86-98 | only A and AAAA records with a non-empty address have a recency key, and the key is the address |
| Recency.LruIgnoreIp | nftables_cache.go:81-105 | true iff the cache exists, the record is an address record with a non-empty address, the address has an entry, and its count has reached the retry threshold; the entries are never changed; a present address becomes the most recently used key with the other keys in their old order, and in every other case the cache is returned unchanged |
| Recency.LruUpdateIp | nftables_cache.go:108-137 | an existing entry's count rises by exactly one and its expiry stays; a missing one is inserted with count 1 expiring `timeout` after `now`; other entries change only by eviction of the oldest from a full cache; the address ends as the most recently used key with the other keys in their old order (minus an evicted front key); the applied count is never stored; a missing cache or a non-address record changes nothing |
| Recency.RecordIp | nftables_cache.go:128-136 | the same three cases on an existing cache, for the entries and for the resulting LRU order: the in-place count increase after the lookup does not reorder anything further |
| Recency.ExpiredPrefix | nftables_cache.go:145-156 | the number of least-recently-used keys removed: all of them have expired at `now` (expiry not after `now`), and the first key kept has not |
| Recency.Collect | nftables_cache.go:139-157 | collection removes only a prefix of the LRU order, each removed entry has expired, the first kept entry has not, kept entries are unchanged, no unexpired entry is removed, every entry that disappears had expired, and the capacity is kept |
| Recency.Gc | nftables_cache.go:139-157 | garbage collection on an existing cache is exactly the collection above: it keeps every unexpired entry, adds or changes none, and every entry it drops had expired; it is a no-op on a missing cache |
| Recency.CollectForgetsExpired | nftables_cache.go:145-156 | when every entry has expired, collection leaves the cache empty |
| Recency.CountGrowth | nftables_cache.go:128-130 | n recorded passes for an existing address raise its count by exactly n, whatever each pass applied, and keep its expiry |
| Recency.CountFromFirstPass | nftables_cache.go:100-136 | n recorded passes for a new address give count n and expiry first-pass time plus timeout; the address is then ignored iff n has reached the retry threshold |
| Tables.GetFamilyName | nftables_cache.go:246-265 | the name is "unknown" exactly for the families outside the seven named ones |
| Tables.IndexTables | nftables_cache.go:210-218 | the cached names are the old ones plus every listed table's name, and each entry is an old one or a listed table |
| Tables.ListTablesOnce | nftables_cache.go:200-219 | a family with cached tables is untouched and makes no call; one without makes exactly one listing call and caches exactly the listed names; other families are untouched |
| Tables.MutableNftablesTable | nftables_cache.go:199-235 | afterwards the family caches the table; other families and existing entries are untouched; the new calls are a listing exactly when the family had no cached tables, then an add exactly when the name was still unknown; a cached table costs no call; when the family had no cached tables, afterwards it caches exactly every listed table plus the requested one |
| Tables.ListedNeverAdded | nftables_cache.go:207-228 | after a resolution that listed the family, every listed table is cached, and resolving one of them later makes no engine call at all (no `AddTable`) |
| Tables.ResolveTwice | nftables_cache.go:199-235 | resolving the same table a second time makes no engine call and changes nothing |
| Tables.ListedAtMostOnce | nftables_cache.go:207-219 | after one resolution in a family, a later one in that family never lists again, at most adding its table |
| Tables.SetAddElements | nftables_cache.go:237-244 | a failed add sets the connection's error flag and reports the failure; a successful add leaves the flag as it was; the flag is never cleared |
| Tables.FlushPending | nftables_cache.go:167-171 | a failed flush sets the error flag, a successful one leaves it as it was, and one flush call is logged |
| ConnectionPool.StalePrefix | nftables_cache.go:48-54 | the connections popped and discarded are exactly the leading ones older than the timeout (age strictly greater) |
| ConnectionPool.NewCache | nftables_cache.go:42-79 | stale front entries are torn down in order; the first young enough is handed out (after garbage collection) and never one older than the timeout; an empty queue opens a new connection stamped `now` with the error flag clear and a fresh identity, or fails iff connecting fails; the pool stays well-formed and the connection is checked out |
| ConnectionPool.CloseCache | nftables_cache.go:166-184 | the connection is flushed; if it has the error flag (also after a failed flush) or is older than the timeout it is torn down, otherwise appended to the back of the queue with the earlier order kept |
| ConnectionPool.ClearCache | nftables_cache.go:186-197 | the queue ends empty and every connection that was in it is torn down, in order |
| ConnectionPool.CloseCacheKeepsInv | nftables_cache.go:177-180 | returning a checked-out connection keeps identities in the queue distinct |
| ConnectionPool.UnhealthyNeverReacquired | nftables_cache.go:166-175 | a connection returned after an engine error or failed flush is not queued and stays checked out, and the next acquisition never hands it out; with `Dispatch.WorkerKeepsOut` no later worker run brings it back |
| ConnectionPool.FailedAddNeverRequeued | nftables_cache.go:237-243 | a connection whose element add failed is torn down when returned, never queued |
| ConnectionPool.ReuseIdentity | nftables_cache.go:48-58 | acquire, healthy return within the timeout, acquire again hands out the same connection when nothing else is queued |
| ConnectionPool.ClearedPoolOpensFresh | nftables_cache.go:186-197 | after clearing, an acquisition opens a new connection (new identity, stamped `now`) or fails iff connecting fails |
| Dispatch.MutableRuleSet | nftables.go:162-171 | returns the family's existing rule list, or inserts and returns an empty one; other families' lists are untouched |
| Dispatch.MutableRuleSetIdempotent | nftables.go:162-171 | asking for the same family twice changes nothing the second time |
| Dispatch.FamiliesOf | nftables.go:48-71 | A records go to IPv4, inet, bridge; AAAA records to IPv6, inet, bridge; other records to no family |
| Dispatch.Block | nftables.go:80-82 | a family without a rule entry contributes no call; one with rules contributes one call per rule, in order |
| Dispatch.Plan | nftables.go:79-99 | every planned call is for one of the record's families that has rules, with one of that family's rules |
| Dispatch.PlanOne | nftables.go:79-99 | one family plans exactly its block; with `PlanAppend` and `Block`, the plan is every configured rule exactly once, family by family and rule by rule in order |
| Dispatch.PlanAppend | nftables.go:79-99 | the plan is built family by family: two runs of families give the concatenation of their plans |
| Dispatch.PlanCoversRules | nftables.go:79-99 | every rule of every family that has rules is called during the pass |
| Dispatch.Run | nftables.go:77-99 | exactly the planned calls are made, in order, none skipped after an error; each call is made in the engine state the calls before it left and records the applier's error and ignored answers for it; the final engine is the state after the last call; the pass has an error iff some call failed; the counter is the number of calls with no error and not ignored, at most the number of calls |
| Dispatch.RunAllApplied | nftables.go:83-96 | with an applier that always succeeds, does not ignore, and leaves the engine alone, the pass has no error, counts every call, and leaves the engine unchanged |
| Dispatch.ServeRecord | nftables.go:45-103 | a non-address record is skipped with no threshold lookup, rule call or update; the threshold is checked once before any call; an ignored record makes no call and changes no entry; otherwise all planned calls run; the recency update happens iff no call failed (also when none applied), and a failed pass leaves the entries unchanged; an address record below the threshold is always either recorded or errored, recorded exactly when no call failed; the calls and the resulting engine are those of `Run` over the plan |
| Dispatch.ServeAnswers | nftables.go:45-104 | every answer gets one disposition, in order, skipped exactly for non-address records; the connection keeps its identity |
| Dispatch.ServeAnswersOne | nftables.go:45-104 | serving a one-answer response is serving that record on the connection |
| Dispatch.ServeAnswersCons | nftables.go:45-104 | serving a response serves its first record, then the remaining ones on the connection that record left |
| Dispatch.ServeAnswersAppend | nftables.go:45-104 | serving two runs of answers back to back serves the first, then the second on the connection the first left, concatenating dispositions and calls |
| Dispatch.ServeWorker | nftables.go:36-107 | if acquisition fails the error is returned and no answer is looked at; otherwise the answers are served by `ServeAnswers` on the acquired connection (its dispositions and calls are the run's), and the served connection, carrying its updated recency cache, is released through `CloseCache`: returned exactly once, to the back of the queue or, when flagged or stale, to teardown |
| Dispatch.StickyBefore | nftables_cache.go:170 | under an applier that never clears the error flag, a flag raised before any call of a pass is still raised after the last call |
| Dispatch.ServeRecordKeepsFlag | nftables.go:77-103 | under such an applier, a connection flagged before a record, or before any rule call of the record's pass, is still flagged after the record |
| Dispatch.ServeAnswersKeepsFlag | nftables.go:45-104 | under such an applier, a flagged connection stays flagged through every answer |
| Dispatch.FlaggedWorkerTornDown | nftables.go:42 | under such an applier, a connection flagged while some prefix of the answers is served is torn down by the worker, never queued |
| Dispatch.FlaggedPassTornDown | nftables_cache.go:173-180 | under such an applier, if the flag is raised before any rule call of any answer's pass, the worker tears the connection down and leaves the queue as acquisition left it |
| Dispatch.WorkerKeepsOut | nftables.go:36-42 | a worker run never acquires a checked-out identity (one torn down earlier) and leaves it checked out, so it never comes back from the pool |
| Dispatch.HasValidRecord | nftables.go:125-131 | true iff some answer is an A or AAAA record |
| Dispatch.ServeDns | nftables.go:125-153 | no worker runs iff the response holds no A or AAAA record, and otherwise the result is exactly one `ServeWorker` run; the pool stays well-formed |
| Dispatch.ScenarioRecord | nftables.go:45-103 | one A answer on a new connection, with one rule each in two families and both succeeding, makes two calls and records the address once |
| Dispatch.SingleAnswerScenario | nftables.go:36-107 | the same worker run on an empty pool: the connection is queued again holding the address at count 1, which is not ignored under the default threshold |

## Left out

- Netlink and namespace I/O (`openSystemNFTConn`, `cleanupSystemNFTConn`, `destroy`): connecting is a `bool` oracle, and teardown appends to `Pool.destroyed`.
- The nftables library calls `Flush`, `ListTablesOfFamily`, `AddTable` and `SetAddElements`: they are oracle inputs and entries in the call log. `AddTable` is taken to hand back the table it is given. A listing error is modelled as a `None` listing, which the code ignores.
- The set-handle cache inside each table entry (`setCache`): only the rule applier fills it, and that is not part of this model.
- The rule applier `NftablesSetAddElement.ServeDNS` is not part of this model. It is an oracle, and it cannot touch the recency cache. The oracle may return any engine state. The lemmas about the error flag (`Dispatch.KeepsErrorFlag`) assume it never clears the flag, because the program only ever sets it (a failed add or a failed flush). That it only adds cached tables, never removes them, is not assumed, because no proof needs it.
- Concurrency: the pool lock, the detached teardown goroutines and the background worker of asynchronous mode. Acquire and release are atomic transitions. Asynchronous mode differs only in when the response is written, so `ServeDns` treats both modes alike.
- Response writing, rcode choice, the non-writer, the call to the next plugin, metrics (`recordCount`, `exportRecordDuration`) and logging.
- Wall-clock time: one `now` serves a whole worker pass (the code reads the clock at each record), and release happens at a separate `finish` time.
- The setters (`SetConnectionTimeout`, `SetSetLruTimeout`, `SetSetLruMaxCount`, `SetSetLruMaxRetryTimes`, `SetNftableAsyncMode`): they become the choice of a `Config.Settings` value. The asynchronous-mode flag is not a field of it, because it only decides when the response is written (see Concurrency).
- Recency.LruUpdateIp: the apply count is an unbounded integer, so Go's 64-bit `int` overflow is not modelled. It would need more than 2^63 passes for one address.
- The LRU library is not part of this model. It is modelled by its observable behaviour: most-recent ordering, and eviction of the least recently used key on a full insert. A non-positive size is taken to yield no cache, which matches the nil checks in `LruIgnoreIp`, `LruUpdateIp` and `gc`.

=== FILE: config.dfy ===
/**
  The process-wide tunables of the plugin. Time is counted in nanoseconds,
  the unit of a Go `time.Duration`; the setters that overwrite these values at
  configuration time become the choice of a `Settings` value.
 */
module Config {

  const Second: int := 1_000_000_000
  const Minute: int := 60 * Second
  const Hour: int := 60 * Minute

  datatype Settings = Settings(
    connectionTimeout: int,  // maximal age of a pooled connection
    lruMaxRetryTimes: int,   // apply count from which an address is ignored
    lruMaxCount: int,        // capacity of each connection's recency cache
    lruTimeout: int)         // lifetime of a recency entry

  /** The values the plugin starts with. */
  const Defaults: Settings := Settings(5 * Minute, 2147483647, 10000, 720 * Hour)
}

=== FILE: dispatch.dfy ===
/**
  The dispatcher: for every address record of a response it resolves the
  table families, checks the recency cache once, fans out to every
  configured add-element rule of those families, and records the pass in
  the recency cache only when no rule failed. The rule applier is an oracle
  that may change the connection's engine state and answers whether it
  failed and whether it ignored the address.
 */
module Dispatch {
  import opened Wrappers
  import opened Seqs
  import opened Config
  import opened Lru
  import opened Records
  import opened Tables
  import opened ConnectionPool
  import Recency

  /** A configured add-element rule, named by the table and set it adds addresses to. */
  datatype Rule = Rule(tableName: string, setName: string)

  /** The rules configured per table family. */
  type RuleSets = map<Family, seq<Rule>>

  datatype Handler = Handler(rules: RuleSets)

  /**
    The rule list of `f`, created empty when `f` has none yet. Returns the
    updated rule sets and the list.
   */
  function MutableRuleSet(rules: RuleSets, f: Family): (r: (RuleSets, seq<Rule>))
    ensures f in r.0 && r.0[f] == r.1
    ensures f in rules ==> r.0 == rules
    ensures f !in rules ==> r.1 == []
    ensures r.0 - {f} == rules - {f}
  {
    if f in rules then (rules, rules[f]) else (rules[f := []], [])
  }

  /** Asking for the same family's rule list twice changes nothing the second time. */
  lemma MutableRuleSetIdempotent(rules: RuleSets, f: Family)
    ensures var once := MutableRuleSet(rules, f);
      MutableRuleSet(once.0, f) == once
  {
  }

  /**
    The table families an answer record is added to: its own address family
    first, then the family-agnostic ones. Other record kinds have none.
   */
  function FamiliesOf(rec: Record): (r: seq<Family>)
    ensures rec.A? ==> r == [IPv4, INet, Bridge]
    ensures rec.AAAA? ==> r == [IPv6, INet, Bridge]
    ensures rec.Other? ==> r == []
  {
    match rec
    case A(_, _) => [IPv4, INet, Bridge]
    case AAAA(_, _) => [IPv6, INet, Bridge]
    case Other(_, _) => []
  }

  /** One applier call: the rule and the family it is applied under. */
  datatype Invocation = Invocation(family: Family, rule: Rule)

  /** The calls for one family: each of its rules in order, none when it has no entry. */
  function Block(f: Family, rules: RuleSets): (r: seq<Invocation>)
    ensures f !in rules ==> r == []
    ensures f in rules ==> |r| == |rules[f]| && forall j :: 0 <= j < |r| ==> r[j] == Invocation(f, rules[f][j])
  {
    if f in rules then seq(|rules[f]|, j requires 0 <= j < |rules[f]| => Invocation(f, rules[f][j])) else []
  }

  /** Every applier call a pass makes, in order: family by family, rule by rule. */
  function Plan(families: seq<Family>, rules: RuleSets): (r: seq<Invocation>)
    ensures forall i :: 0 <= i < |r| ==>
      r[i].family in families && r[i].family in rules && r[i].rule in rules[r[i].family]
    decreases |families|
  {
    if |families| == 0 then [] else Block(families[0], rules) + Plan(families[1..], rules)
  }

  /** Planning two runs of families back to back plans each run in turn. */
  lemma {:induction false} PlanAppend(fs: seq<Family>, gs: seq<Family>, rules: RuleSets)
    ensures Plan(fs + gs, rules) == Plan(fs, rules) + Plan(gs, rules)
    decreases |fs|
  {
    if |fs| == 0 {
      assert fs + gs == gs;
    } else {
      assert (fs + gs)[0] == fs[0];
      assert (fs + gs)[1..] == fs[1..] + gs;
      PlanAppend(fs[1..], gs, rules);
    }
  }

  /** A single family plans exactly its own block: each of its rules once, in order. */
  lemma PlanOne(f: Family, rules: RuleSets)
    ensures Plan([f], rules) == Block(f, rules)
  {
    assert [f][1..] == [];
    ConcatEmpty(Block(f, rules));
  }

  /** Every rule of every family that has rules is called by the pass. */
  lemma {:induction false} PlanCoversRules(families: seq<Family>, rules: RuleSets, i: nat, j: nat)
    requires i < |families| && families[i] in rules && j < |rules[families[i]]|
    ensures Invocation(families[i], rules[families[i]][j]) in Plan(families, rules)
    decreases |families|
  {
    var target := Invocation(families[i], rules[families[i]][j]);
    var head := Block(families[0], rules);
    var tail := Plan(families[1..], rules);
    assert Plan(families, rules) == head + tail;
    if i == 0 {
      assert target in head by {
        assert head[j] == target;
      }
    } else {
      assert target in tail by {
        assert families[1..][i - 1] == families[i];
        PlanCoversRules(families[1..], rules, i - 1, j);
      }
    }
  }

  /** What the applier answers, and the engine state it leaves behind. */
  datatype ApplyResult = ApplyResult(engine: Engine, err: bool, ignored: bool)

  /** The rule applier: engine state, rule, family and record in, its answer out. */
  type Applier = (Engine, Rule, Family, Record) -> ApplyResult

  /** One applier call made during a pass, with its answer. */
  datatype Call = Call(invocation: Invocation, err: bool, ignored: bool)

  /** The calls that applied the address: no error and not ignored by the rule. */
  function CountApplied(calls: seq<Call>): nat
    decreases |calls|
  {
    if |calls| == 0 then 0
    else (if !calls[0].err && !calls[0].ignored then 1 else 0) + CountApplied(calls[1..])
  }

  /** The outcome of one fan-out: engine state, calls made, whether any failed, how many applied. */
  datatype FanOut = FanOut(engine: Engine, calls: seq<Call>, hasError: bool, applyCounter: nat)

  /**
    The engine state in which the `i`-th planned call is made: the state the
    previous calls left behind.
   */
  function Before(e: Engine, plan: seq<Invocation>, rec: Record, applier: Applier, i: nat): Engine
    requires i <= |plan|
    decreases i
  {
    if i == 0 then e
    else Before(applier(e, plan[0].rule, plan[0].family, rec).engine, plan[1..], rec, applier, i - 1)
  }

  /**
    Makes every planned call in order, each in the engine state the calls
    before it left. A failing call does not stop the ones after it.
   */
  function Run(e: Engine, plan: seq<Invocation>, rec: Record, applier: Applier): (r: FanOut)
    ensures |r.calls| == |plan|
    ensures forall i :: 0 <= i < |plan| ==> r.calls[i].invocation == plan[i]
    ensures forall i :: 0 <= i < |plan| ==>
      var a := applier(Before(e, plan, rec, applier, i), plan[i].rule, plan[i].family, rec);
      r.calls[i] == Call(plan[i], a.err, a.ignored)
    ensures r.engine == Before(e, plan, rec, applier, |plan|)
    ensures r.hasError <==> exists i :: 0 <= i < |r.calls| && r.calls[i].err
    ensures r.applyCounter == CountApplied(r.calls) <= |plan|
    decreases |plan|
  {
    if |plan| == 0 then FanOut(e, [], false, 0)
    else
      var out := applier(e, plan[0].rule, plan[0].family, rec);
      var rest := Run(out.engine, plan[1..], rec, applier);
      var calls := [Call(plan[0], out.err, out.ignored)] + rest.calls;
      assert calls[1..] == rest.calls;
      FanOut(rest.engine, calls, out.err || rest.hasError,
             (if !out.err && !out.ignored then 1 else 0) + rest.applyCounter)
  }

  /**
    The rule applier never clears a connection's error flag: in the program
    the flag is only ever set, by a failed add or a failed flush.
   */
  ghost predicate KeepsErrorFlag(applier: Applier) {
    forall e: Engine, rule: Rule, f: Family, rec: Record :: e.hasError ==> applier(e, rule, f, rec).engine.hasError
  }

  /** Under such an applier, a flag raised before any call of a pass is still raised at its end. */
  lemma {:induction false} StickyBefore(e: Engine, plan: seq<Invocation>, rec: Record, applier: Applier, i: nat)
    requires KeepsErrorFlag(applier)
    requires i <= |plan| && Before(e, plan, rec, applier, i).hasError
    ensures Before(e, plan, rec, applier, |plan|).hasError
    ensures Run(e, plan, rec, applier).engine.hasError
    decreases |plan|
  {
    if 0 < |plan| {
      var next := applier(e, plan[0].rule, plan[0].family, rec).engine;
      if i == 0 {
        StickyBefore(next, plan[1..], rec, applier, 0);
      } else {
        StickyBefore(next, plan[1..], rec, applier, i - 1);
      }
    }
  }

  /**
    With an applier that applies every call without failing or touching the
    engine, a pass has no error and applies every planned call.
   */
  lemma {:induction false} RunAllApplied(e: Engine, plan: seq<Invocation>, rec: Record, applier: Applier)
    requires forall e', rule, f :: applier(e', rule, f, rec) == ApplyResult(e', false, false)
    ensures Run(e, plan, rec, applier).engine == e
    ensures !Run(e, plan, rec, applier).hasError
    ensures Run(e, plan, rec, applier).applyCounter == |plan|
    decreases |plan|
  {
    if |plan| > 0 {
      RunAllApplied(applier(e, plan[0].rule, plan[0].family, rec).engine, plan[1..], rec, applier);
    }
  }

  /** What happened to one answer record. */
  datatype Disposition =
    | Skipped    // not an address record
    | Ignored    // its address reached the retry threshold
    | Recorded   // every rule call succeeded and the pass was recorded
    | Errored    // some rule call failed; the recency cache keeps its entries

  datatype RecordResult = RecordResult(conn: Conn, disposition: Disposition, calls: seq<Call>)

  /** The dispatcher's work for one answer record on the acquired connection. */
  function ServeRecord(cfg: Settings, rules: RuleSets, c: Conn, rec: Record, now: int, applier: Applier): (r: RecordResult)
    requires Recency.Valid(c.recent)
    ensures r.conn.id == c.id && r.conn.created == c.created && Recency.Valid(r.conn.recent)
    ensures !rec.IsAddress() ==> r == RecordResult(c, Skipped, [])
    ensures var check := Recency.LruIgnoreIp(c.recent, rec, cfg.lruMaxRetryTimes);
      && (r.disposition == Ignored <==> rec.IsAddress() && check.0)
      && (r.disposition == Ignored ==> r.calls == [] && r.conn.engine == c.engine && r.conn.recent == check.1)
      && (r.disposition == Errored <==> rec.IsAddress() && !check.0 && exists i :: 0 <= i < |r.calls| && r.calls[i].err)
      && (r.disposition == Errored ==> r.conn.recent == check.1)
      && (r.disposition == Recorded ==>
            r.conn.recent == Recency.LruUpdateIp(check.1, rec, CountApplied(r.calls), now, cfg.lruTimeout))
      && (rec.IsAddress() && !check.0 ==> r.disposition == Recorded || r.disposition == Errored)
      && (r.disposition == Recorded <==>
            rec.IsAddress() && !check.0 && forall i :: 0 <= i < |r.calls| ==> !r.calls[i].err)
    ensures r.disposition == Recorded || r.disposition == Errored ==>
      var plan := Plan(FamiliesOf(rec), rules);
      var pass := Run(c.engine, plan, rec, applier);
      && |r.calls| == |plan| && (forall i :: 0 <= i < |plan| ==> r.calls[i].invocation == plan[i])
      && r.calls == pass.calls && r.conn.engine == pass.engine
    ensures r.disposition != Recorded ==> Recency.Entries(r.conn.recent) == Recency.Entries(c.recent)
  {
    var families := FamiliesOf(rec);
    if families == [] then RecordResult(c, Skipped, [])
    else
      var check := Recency.LruIgnoreIp(c.recent, rec, cfg.lruMaxRetryTimes);
      var checked := c.(recent := check.1);
      if check.0 then RecordResult(checked, Ignored, [])
      else
        var pass := Run(checked.engine, Plan(families, rules), rec, applier);
        var applied := checked.(engine := pass.engine);
        if pass.hasError then RecordResult(applied, Errored, pass.calls)
        else
          RecordResult(applied.(recent := Recency.LruUpdateIp(applied.recent, rec, pass.applyCounter, now, cfg.lruTimeout)),
                       Recorded, pass.calls)
  }

  datatype Processed = Processed(conn: Conn, dispositions: seq<Disposition>, calls: seq<Call>)

  /** The dispatcher's loop over the answer records, in order, on one connection. */
  function ServeAnswers(cfg: Settings, rules: RuleSets, c: Conn, answers: seq<Record>, now: int, applier: Applier): (r: Processed)
    requires Recency.Valid(c.recent)
    ensures r.conn.id == c.id && r.conn.created == c.created && Recency.Valid(r.conn.recent)
    ensures |r.dispositions| == |answers|
    ensures forall i :: 0 <= i < |answers| ==> (r.dispositions[i] == Skipped <==> !answers[i].IsAddress())
    decreases |answers|
  {
    if |answers| == 0 then Processed(c, [], [])
    else
      var first := ServeRecord(cfg, rules, c, answers[0], now, applier);
      var rest := ServeAnswers(cfg, rules, first.conn, answers[1..], now, applier);
      Processed(rest.conn, [first.disposition] + rest.dispositions, first.calls + rest.calls)
  }

  /** Serving a single answer is serving that record. */
  lemma ServeAnswersOne(cfg: Settings, rules: RuleSets, c: Conn, rec: Record, now: int, applier: Applier)
    requires Recency.Valid(c.recent)
    ensures var one := ServeRecord(cfg, rules, c, rec, now, applier);
      ServeAnswers(cfg, rules, c, [rec], now, applier) == Processed(one.conn, [one.disposition], one.calls)
  {
    var one := ServeRecord(cfg, rules, c, rec, now, applier);
    ConcatEmpty([rec]);
    ServeAnswersCons(cfg, rules, c, rec, [], now, applier);
    assert ServeAnswers(cfg, rules, one.conn, [], now, applier) == Processed(one.conn, [], []);
    ConcatEmpty([one.disposition]);
    ConcatEmpty(one.calls);
  }

  /** Serving a non-empty run of answers serves its first record, then the rest. */
  lemma ServeAnswersCons(cfg: Settings, rules: RuleSets, c: Conn, x: Record, rest: seq<Record>, now: int, applier: Applier)
    requires Recency.Valid(c.recent)
    ensures var head := ServeRecord(cfg, rules, c, x, now, applier);
      var tail := ServeAnswers(cfg, rules, head.conn, rest, now, applier);
      ServeAnswers(cfg, rules, c, [x] + rest, now, applier)
        == Processed(tail.conn, [head.disposition] + tail.dispositions, head.calls + tail.calls)
  {
    assert ([x] + rest)[0] == x;
    assert ([x] + rest)[1..] == rest;
  }

  /**
    Serving `a + b` serves `a`, then serves `b` on the connection `a` left:
    the records are handled strictly one after another.
   */
  lemma {:induction false} ServeAnswersAppend(cfg: Settings, rules: RuleSets, c: Conn, a: seq<Record>, b: seq<Record>,
                                              now: int, applier: Applier)
    requires Recency.Valid(c.recent)
    ensures var first := ServeAnswers(cfg, rules, c, a, now, applier);
      var second := ServeAnswers(cfg, rules, first.conn, b, now, applier);
      ServeAnswers(cfg, rules, c, a + b, now, applier)
        == Processed(second.conn, first.dispositions + second.dispositions, first.calls + second.calls)
    decreases |a|
  {
    if |a| == 0 {
      var second := ServeAnswers(cfg, rules, c, b, now, applier);
      assert a == [];
      EmptyConcat(b);
      EmptyConcat(second.dispositions);
      EmptyConcat(second.calls);
    } else {
      var x, xs := a[0], a[1..];
      var head := ServeRecord(cfg, rules, c, x, now, applier);
      var tail := ServeAnswers(cfg, rules, head.conn, xs, now, applier);
      var second := ServeAnswers(cfg, rules, tail.conn, b, now, applier);
      var rest := ServeAnswers(cfg, rules, head.conn, xs + b, now, applier);
      assert ServeAnswers(cfg, rules, c, a, now, applier)
          == Processed(tail.conn, [head.disposition] + tail.dispositions, head.calls + tail.calls) by {
        HeadTail(a);
        ServeAnswersCons(cfg, rules, c, x, xs, now, applier);
      }
      assert ServeAnswers(cfg, rules, c, a + b, now, applier)
          == Processed(rest.conn, [head.disposition] + rest.dispositions, head.calls + rest.calls) by {
        HeadTail(a);
        ConcatAssoc([x], xs, b);
        ServeAnswersCons(cfg, rules, c, x, xs + b, now, applier);
      }
      ServeAnswersAppend(cfg, rules, head.conn, xs, b, now, applier);
      ConcatAssoc([head.disposition], tail.dispositions, second.dispositions);
      ConcatAssoc(head.calls, tail.calls, second.calls);
    }
  }

  /**
    Under an applier that keeps the error flag, a connection flagged before a
    record, or during the record's pass, is still flagged afterwards.
   */
  lemma ServeRecordKeepsFlag(cfg: Settings, rules: RuleSets, c: Conn, rec: Record, now: int, applier: Applier, i: nat)
    requires Recency.Valid(c.recent) && KeepsErrorFlag(applier)
    requires var plan := Plan(FamiliesOf(rec), rules);
      || c.engine.hasError
      || (&& i <= |plan| && Before(c.engine, plan, rec, applier, i).hasError
          && !Recency.LruIgnoreIp(c.recent, rec, cfg.lruMaxRetryTimes).0 && rec.IsAddress())
    ensures ServeRecord(cfg, rules, c, rec, now, applier).conn.engine.hasError
  {
    var plan := Plan(FamiliesOf(rec), rules);
    var r := ServeRecord(cfg, rules, c, rec, now, applier);
    if r.disposition == Recorded || r.disposition == Errored {
      if c.engine.hasError {
        StickyBefore(c.engine, plan, rec, applier, 0);
      } else {
        StickyBefore(c.engine, plan, rec, applier, i);
      }
    }
  }

  /** Under an applier that keeps the error flag, a flagged connection stays flagged through every answer. */
  lemma {:induction false} ServeAnswersKeepsFlag(cfg: Settings, rules: RuleSets, c: Conn, answers: seq<Record>, now: int, applier: Applier)
    requires Recency.Valid(c.recent) && KeepsErrorFlag(applier) && c.engine.hasError
    ensures ServeAnswers(cfg, rules, c, answers, now, applier).conn.engine.hasError
    decreases |answers|
  {
    if |answers| > 0 {
      var first := ServeRecord(cfg, rules, c, answers[0], now, applier);
      ServeRecordKeepsFlag(cfg, rules, c, answers[0], now, applier, 0);
      ServeAnswersKeepsFlag(cfg, rules, first.conn, answers[1..], now, applier);
    }
  }

  /**
    Under an applier that keeps the error flag, once the connection is
    flagged while the first `j` answers are served, the worker tears it down
    instead of queueing it.
   */
  lemma FlaggedWorkerTornDown(h: Handler, cfg: Settings, p: Pool, answers: seq<Record>, now: int, finish: int,
                              connectOk: bool, flushOk: bool, applier: Applier, j: nat)
    requires Inv(p) && KeepsErrorFlag(applier) && j <= |answers|
    requires var a := NewCache(p, now, cfg, connectOk);
      a.conn.Ok? && ServeAnswers(cfg, h.rules, a.conn.value, answers[..j], now, applier).conn.engine.hasError
    ensures var a := NewCache(p, now, cfg, connectOk);
      var r := ServeWorker(h, cfg, p, answers, now, finish, connectOk, flushOk, applier);
      && r.pool.queue == a.pool.queue
      && |r.pool.destroyed| == |a.pool.destroyed| + 1
      && r.pool.destroyed[|a.pool.destroyed|].id == a.conn.value.id
  {
    var a := NewCache(p, now, cfg, connectOk);
    var c := a.conn.value;
    var head := ServeAnswers(cfg, h.rules, c, answers[..j], now, applier);
    ServeAnswersKeepsFlag(cfg, h.rules, head.conn, answers[j..], now, applier);
    ServeAnswersAppend(cfg, h.rules, c, answers[..j], answers[j..], now, applier);
    TakeDrop(answers, j);
    var done := ServeAnswers(cfg, h.rules, c, answers, now, applier);
    assert done.conn.engine.hasError;
    assert done.conn.id == c.id;
  }

  /**
    Under an applier that keeps the error flag, a worker whose pass for some
    answer saw the flag raised, before any of its rule calls, tears the
    connection down instead of queueing it.
   */
  lemma FlaggedPassTornDown(h: Handler, cfg: Settings, p: Pool, answers: seq<Record>, now: int, finish: int,
                            connectOk: bool, flushOk: bool, applier: Applier, j: nat, i: nat)
    requires Inv(p) && KeepsErrorFlag(applier)
    ensures var a := NewCache(p, now, cfg, connectOk);
      a.conn.Ok? && j < |answers| ==>
      var mid := ServeAnswers(cfg, h.rules, a.conn.value, answers[..j], now, applier).conn;
      var plan := Plan(FamiliesOf(answers[j]), h.rules);
      answers[j].IsAddress() && !Recency.LruIgnoreIp(mid.recent, answers[j], cfg.lruMaxRetryTimes).0
      && i <= |plan| && Before(mid.engine, plan, answers[j], applier, i).hasError ==>
      var r := ServeWorker(h, cfg, p, answers, now, finish, connectOk, flushOk, applier);
      && r.pool.queue == a.pool.queue
      && |r.pool.destroyed| == |a.pool.destroyed| + 1
      && r.pool.destroyed[|a.pool.destroyed|].id == a.conn.value.id
  {
    var a := NewCache(p, now, cfg, connectOk);
    if a.conn.Ok? && j < |answers| {
      var c := a.conn.value;
      var mid := ServeAnswers(cfg, h.rules, c, answers[..j], now, applier).conn;
      var plan := Plan(FamiliesOf(answers[j]), h.rules);
      if answers[j].IsAddress() && !Recency.LruIgnoreIp(mid.recent, answers[j], cfg.lruMaxRetryTimes).0
         && i <= |plan| && Before(mid.engine, plan, answers[j], applier, i).hasError {
        ServeRecordKeepsFlag(cfg, h.rules, mid, answers[j], now, applier, i);
        ServeAnswersOne(cfg, h.rules, mid, answers[j], now, applier);
        ServeAnswersAppend(cfg, h.rules, c, answers[..j], [answers[j]], now, applier);
        TakeOneMore(answers, j);
        FlaggedWorkerTornDown(h, cfg, p, answers, now, finish, connectOk, flushOk, applier, j + 1);
      }
    }
  }

  /**
    A worker run keeps a checked-out identity out of the pool: it never
    acquires it, and the identity is still checked out afterwards. Chained
    over later runs, a torn-down connection never comes back.
   */
  lemma WorkerKeepsOut(h: Handler, cfg: Settings, p: Pool, answers: seq<Record>, now: int, finish: int,
                       connectOk: bool, flushOk: bool, applier: Applier, x: nat)
    requires Inv(p) && CheckedOut(p, x)
    ensures var a := NewCache(p, now, cfg, connectOk);
      && (a.conn.Ok? ==> a.conn.value.id != x)
      && CheckedOut(ServeWorker(h, cfg, p, answers, now, finish, connectOk, flushOk, applier).pool, x)
  {
    var a := NewCache(p, now, cfg, connectOk);
    if a.conn.Ok? && a.pool.nextId == p.nextId {
      var k := |p.queue| - |a.pool.queue| - 1;
      assert a.conn.value.id == p.queue[k].id;
    }
  }

  /** `after` is `before` with connection `id` returned exactly once, to the queue or to teardown. */
  ghost predicate ReleasedOnce(before: Pool, after: Pool, id: nat) {
    && after.nextId == before.nextId
    && (|| (&& |after.queue| == |before.queue| + 1
            && after.queue[..|before.queue|] == before.queue
            && after.queue[|before.queue|].id == id
            && after.destroyed == before.destroyed)
        || (&& after.queue == before.queue
            && |after.destroyed| == |before.destroyed| + 1
            && after.destroyed[..|before.destroyed|] == before.destroyed
            && after.destroyed[|before.destroyed|].id == id))
  }

  datatype Served = Served(pool: Pool, result: Outcome<Error>, dispositions: seq<Disposition>, calls: seq<Call>)

  /**
    One worker run for a response: acquire a connection, serve every answer
    record on it, and return it to the pool at `finish`. A failed
    acquisition ends the run before any record is looked at.
   */
  function ServeWorker(h: Handler, cfg: Settings, p: Pool, answers: seq<Record>, now: int, finish: int,
                       connectOk: bool, flushOk: bool, applier: Applier): (r: Served)
    requires Inv(p)
    ensures Inv(r.pool)
    ensures var a := NewCache(p, now, cfg, connectOk);
      && (r.result.Fail? <==> a.conn.Err?)
      && (a.conn.Err? ==> r.pool == a.pool && r.dispositions == [] && r.calls == [])
      && (a.conn.Ok? ==> |r.dispositions| == |answers| && ReleasedOnce(a.pool, r.pool, a.conn.value.id))
    ensures var a := NewCache(p, now, cfg, connectOk);
      a.conn.Ok? ==>
        var done := ServeAnswers(cfg, h.rules, a.conn.value, answers, now, applier);
        && r.dispositions == done.dispositions
        && r.calls == done.calls
        && r.pool == CloseCache(a.pool, done.conn, finish, cfg.connectionTimeout, flushOk)
  {
    var a := NewCache(p, now, cfg, connectOk);
    match a.conn
    case Err(e) => Served(a.pool, Fail(e), [], [])
    case Ok(c) =>
      var done := ServeAnswers(cfg, h.rules, c, answers, now, applier);
      CloseCacheKeepsInv(a.pool, done.conn, finish, cfg.connectionTimeout, flushOk);
      Served(CloseCache(a.pool, done.conn, finish, cfg.connectionTimeout, flushOk), Pass, done.dispositions, done.calls)
  }

  /** Whether a response holds an IPv4 or IPv6 address record. */
  function HasValidRecord(answers: seq<Record>): (r: bool)
    ensures r <==> exists i :: 0 <= i < |answers| && answers[i].IsAddress()
    decreases |answers|
  {
    if |answers| == 0 then false
    else if answers[0].IsAddress() then true
    else
      var rest := HasValidRecord(answers[1..]);
      assert forall i :: 1 <= i < |answers| ==> answers[i] == answers[1..][i - 1];
      rest
  }

  /**
    The part of request handling this model keeps: a response without an
    address record is passed on untouched and no worker runs; otherwise one
    worker runs for it. In asynchronous mode the worker runs after the
    response is written, which changes nothing observable here.
   */
  function ServeDns(h: Handler, cfg: Settings, p: Pool, answers: seq<Record>, now: int, finish: int,
                    connectOk: bool, flushOk: bool, applier: Applier): (r: Option<Served>)
    requires Inv(p)
    ensures r.None? <==> forall i :: 0 <= i < |answers| ==> !answers[i].IsAddress()
    ensures r.Some? ==> Inv(r.value.pool)
    ensures r.Some? ==> r.value == ServeWorker(h, cfg, p, answers, now, finish, connectOk, flushOk, applier)
  {
    if HasValidRecord(answers) then Some(ServeWorker(h, cfg, p, answers, now, finish, connectOk, flushOk, applier))
    else None
  }

  /** A rule applier whose every call succeeds without changing the engine. */
  function AlwaysApplies(e: Engine, rule: Rule, f: Family, rec: Record): ApplyResult {
    ApplyResult(e, false, false)
  }

  /**
    One IPv4 answer, two families with one rule each, both succeeding on a
    fresh connection: the address is recorded once and is not ignored.
   */
  lemma SingleAnswerScenario()
    ensures var rules := map[IPv4 := [Rule("filter", "v4")], INet := [Rule("filter", "any")]];
      var rec := A("example.org.", "1.2.3.4");
      var s := ServeWorker(Handler(rules), Defaults, Pool([], [], 0), [rec], 0, 0, true, true, AlwaysApplies);
      && s.result.Pass?
      && s.dispositions == [Recorded]
      && |s.calls| == 2
      && |s.pool.queue| == 1
      && Recency.Entries(s.pool.queue[0].recent) == map["1.2.3.4" := IpEntry(720 * Hour, 1)]
      && !Recency.LruIgnoreIp(s.pool.queue[0].recent, rec, Defaults.lruMaxRetryTimes).0
  {
    var rules := map[IPv4 := [Rule("filter", "v4")], INet := [Rule("filter", "any")]];
    var rec := A("example.org.", "1.2.3.4");
    var a := NewCache(Pool([], [], 0), 0, Defaults, true);
    assert a.conn == Ok(Conn(0, 0, Opened, Some(Cache(10000, [], map[]))));
    var c := a.conn.value;
    var done := ServeAnswers(Defaults, rules, c, [rec], 0, AlwaysApplies);
    ScenarioRecord(rules, rec, c);
    ServeAnswersOne(Defaults, rules, c, rec, 0, AlwaysApplies);
    var q := CloseCache(a.pool, done.conn, 0, Defaults.connectionTimeout, true);
    assert q.queue == [Flushed(done.conn, true)];
    assert Recency.Entries(q.queue[0].recent) == map["1.2.3.4" := IpEntry(720 * Hour, 1)];
  }

  /** The recorded part of the scenario: both rules are called and the address starts at count one. */
  lemma ScenarioRecord(rules: RuleSets, rec: Record, c: Conn)
    requires rules == map[IPv4 := [Rule("filter", "v4")], INet := [Rule("filter", "any")]]
    requires rec == A("example.org.", "1.2.3.4")
    requires c == Conn(0, 0, Opened, Some(Cache(10000, [], map[])))
    ensures var r := ServeRecord(Defaults, rules, c, rec, 0, AlwaysApplies);
      && r.disposition == Recorded
      && r.conn.engine == Opened
      && r.conn.id == 0 && r.conn.created == 0
      && |r.calls| == 2
      && Recency.Entries(r.conn.recent) == map["1.2.3.4" := IpEntry(720 * Hour, 1)]
  {
    var plan := Plan(FamiliesOf(rec), rules);
    assert Block(IPv4, rules) == [Invocation(IPv4, Rule("filter", "v4"))];
    assert Block(INet, rules) == [Invocation(INet, Rule("filter", "any"))];
    assert Block(Bridge, rules) == [];
    assert Plan([Bridge], rules) == [];
    assert Plan([INet, Bridge], rules) == [Invocation(INet, Rule("filter", "any"))];
    assert |plan| == 2;
    RunAllApplied(c.engine, plan, rec, AlwaysApplies);
    var r := ServeRecord(Defaults, rules, c, rec, 0, AlwaysApplies);
    assert r.disposition == Recorded;
  }
}

=== FILE: lru.dfy ===
/**
  A bounded least-recently-used map from address strings to recency entries,
  the behaviour the plugin relies on from its LRU library: `Get` and `Add`
  make the key the most recently used one, and inserting a new key into a full
  cache evicts the least recently used key.
 */
module Lru {
  import opened Wrappers
  import opened Seqs

  /** What the plugin remembers about one address. */
  datatype IpEntry = IpEntry(expireTime: int, applyCount: int)

  /** No key occurs twice. */
  predicate Distinct(s: seq<string>) {
    forall i, j :: 0 <= i < j < |s| ==> s[i] != s[j]
  }

  /** The keys occurring in `s`. */
  function Elems(s: seq<string>): set<string>
    decreases |s|
  {
    if |s| == 0 then {} else {s[0]} + Elems(s[1..])
  }

  /**
    `order` lists the keys from least to most recently used; `values` holds
    their entries. `capacity` is fixed when the cache is created.
   */
  datatype Cache = Cache(capacity: nat, order: seq<string>, values: map<string, IpEntry>) {

    ghost predicate Valid() {
      && 0 < capacity
      && |order| <= capacity
      && Distinct(order)
      && values.Keys == Elems(order)
    }

    function Len(): nat {
      |order|
    }
  }

  /**
    The value for `k`, making `k` the most recently used key: it moves to the
    end of `order` and every other key keeps its place relative to the rest.
   */
  function Get(c: Cache, k: string): (r: (Option<IpEntry>, Cache))
    requires c.Valid()
    ensures r.1.Valid() && r.1.capacity == c.capacity && r.1.values == c.values
    ensures k in c.values ==>
      var i := IndexOf(c.order, k);
      && r.0 == Some(c.values[k])
      && r.1.order == c.order[..i] + c.order[i + 1..] + [k]
      && Last(r.1.order) == k
    ensures k !in c.values ==> r.0 == None && r.1 == c
  {
    if k in c.values then
      TouchKeys(c.order, k);
      TouchDistinct(c.order, k);
      (Some(c.values[k]), Cache(c.capacity, Touch(c.order, k), c.values))
    else (None, c)
  }

  /**
    Stores `v` under `k` as the most recently used key. An existing key moves
    to the end of `order`; a new key is appended, and when the cache is full
    the least recently used key, the front of `order`, is evicted.
   */
  function Add(c: Cache, k: string, v: IpEntry): (r: Cache)
    requires c.Valid()
    ensures r.Valid() && r.capacity == c.capacity
    ensures |r.order| > 0 && Last(r.order) == k
    ensures k in c.values ==>
      var i := IndexOf(c.order, k);
      r.order == c.order[..i] + c.order[i + 1..] + [k] && r.values == c.values[k := v]
    ensures k !in c.values && c.Len() < c.capacity ==> r.order == c.order + [k] && r.values == c.values[k := v]
    ensures k !in c.values && c.Len() == c.capacity ==>
      r.order == c.order[1..] + [k] && r.values == (c.values - {c.order[0]})[k := v]
  {
    if k in c.values then
      TouchKeys(c.order, k);
      TouchDistinct(c.order, k);
      Cache(c.capacity, Touch(c.order, k), c.values[k := v])
    else
      ElemsIn(c.order);
      var grown := c.order + [k];
      assert Distinct(grown);
      ElemsAppend(c.order, k);
      if |grown| > c.capacity then
        ElemsDropFirst(grown);
        assert grown[1..] == c.order[1..] + [k];
        Cache(c.capacity, grown[1..], (c.values - {c.order[0]})[k := v])
      else Cache(c.capacity, grown, c.values[k := v])
  }

  /** The cache the LRU library builds for a requested size; it refuses a size that is not positive. */
  function New(size: int): (r: Option<Cache>)
    ensures r.Some? <==> size > 0
    ensures r.Some? ==> r.value.Valid() && r.value.capacity == size && r.value.values == map[]
  {
    if size > 0 then Some(Cache(size, [], map[])) else None
  }

  function Last(s: seq<string>): string
    requires |s| > 0
  {
    s[|s| - 1]
  }

  /** The position of `k` in `s`. */
  function IndexOf(s: seq<string>, k: string): (i: nat)
    requires k in Elems(s)
    ensures i < |s| && s[i] == k && k !in s[..i]
  {
    if s[0] == k then 0
    else
      var j := IndexOf(s[1..], k);
      assert s[..j + 1] == [s[0]] + s[1..][..j];
      j + 1
  }

  /** `s` with `k` moved to the end, every other key keeping its relative order. */
  function Touch(s: seq<string>, k: string): seq<string>
    requires k in Elems(s)
  {
    var i := IndexOf(s, k);
    s[..i] + s[i + 1..] + [k]
  }

  /** Moving a key to the end keeps the length and the set of keys, and the key ends up last. */
  lemma TouchKeys(s: seq<string>, k: string)
    requires k in Elems(s)
    ensures |Touch(s, k)| == |s| && Last(Touch(s, k)) == k
    ensures Elems(Touch(s, k)) == Elems(s)
  {
    var i := IndexOf(s, k);
    var before, after := s[..i], s[i + 1..];
    SplitAt(s, i);
    ElemsConcat(before + [k], after);
    ElemsConcat(before, [k]);
    ElemsConcat(before, after);
    ElemsConcat(before + after, [k]);
  }

  /** Moving a key to the end of a sequence free of repeats keeps it free of repeats. */
  lemma TouchDistinct(s: seq<string>, k: string)
    requires k in Elems(s) && Distinct(s)
    ensures Distinct(Touch(s, k))
  {
  }

  /** Touching the key that is already last changes nothing. */
  lemma TouchLast(s: seq<string>)
    requires Distinct(s)
    ensures |s| > 0 ==> Last(s) in Elems(s) && Touch(s, Last(s)) == s
  {
    if |s| > 0 {
      var n := |s| - 1;
      InitLast(s);
      ElemsAppend(s[..n], s[n]);
      var i := IndexOf(s, s[n]);
      assert i == n;
      assert s[i + 1..] == [];
      ConcatEmpty(s[..n]);
    }
  }

  lemma {:induction false} ElemsConcat(a: seq<string>, b: seq<string>)
    ensures Elems(a + b) == Elems(a) + Elems(b)
    decreases |a|
  {
    if |a| > 0 {
      assert (a + b)[1..] == a[1..] + b;
      ElemsConcat(a[1..], b);
    } else {
      assert a + b == b;
    }
  }

  /** `Elems` collects exactly the keys that occur in the sequence. */
  lemma {:induction false} ElemsIn(s: seq<string>)
    ensures forall x :: x in Elems(s) <==> x in s
    decreases |s|
  {
    if |s| > 0 {
      ElemsIn(s[1..]);
      assert forall x :: x in s <==> x == s[0] || x in s[1..];
    }
  }

  lemma ElemsAppend(s: seq<string>, k: string)
    ensures Elems(s + [k]) == Elems(s) + {k}
  {
    ElemsConcat(s, [k]);
  }

  /** Without its first key, a sequence free of repeats loses exactly that key. */
  lemma ElemsDropFirst(s: seq<string>)
    requires |s| > 0 && Distinct(s)
    ensures Elems(s[1..]) == Elems(s) - {s[0]}
  {
    ElemsIn(s[1..]);
    assert forall j :: 0 <= j < |s| - 1 ==> s[1..][j] == s[j + 1];
  }

  /** In a well-formed cache, every key in `order` has an entry. */
  lemma OrderHasEntries(c: Cache)
    requires c.Valid()
    ensures forall i :: 0 <= i < |c.order| ==> c.order[i] in c.values
  {
    ElemsIn(c.order);
  }

  /** In a well-formed cache, the keys with an entry are exactly the keys in `order`. */
  lemma KeysInOrder(c: Cache)
    requires c.Valid()
    ensures forall k :: k in c.values <==> k in c.order
    ensures forall i :: 0 <= i < |c.order| ==> c.order[i] in c.values
  {
    ElemsIn(c.order);
  }

  /** A cache never holds more entries than its capacity. */
  lemma SizeBound(c: Cache)
    requires c.Valid()
    ensures |c.values| == c.Len() <= c.capacity
  {
    DistinctCard(c.order);
    assert |c.values| == |c.values.Keys|;
  }

  /** A sequence free of repeats has as many distinct keys as elements. */
  lemma {:induction false} DistinctCard(s: seq<string>)
    requires Distinct(s)
    ensures |Elems(s)| == |s|
    decreases |s|
  {
    if |s| > 0 {
      assert Distinct(s[1..]) by {
        forall i, j | 0 <= i < j < |s[1..]| ensures s[1..][i] != s[1..][j] {
          assert s[1..][i] == s[i + 1] && s[1..][j] == s[j + 1];
        }
      }
      DistinctCard(s[1..]);
      ElemsDropFirst(s);
    }
  }
}

=== FILE: pool.dfy ===
/**
  The process-wide pool of engine connections. Connections are handed out
  from the front of a FIFO queue and returned to its back; a connection older
  than the pool's time-to-live, or one that saw an engine error, is torn down
  instead. Teardown runs detached in the program; here it appends the
  connection to `destroyed`. The pool lock is not modelled: each operation
  is one atomic transition of a `Pool` value.
 */
module ConnectionPool {
  import opened Wrappers
  import opened Config
  import opened Lru
  import opened Tables
  import Recency

  /** One pooled connection; `id` stands for its identity (a pointer in the program). */
  datatype Conn = Conn(id: nat, created: int, engine: Engine, recent: Option<Cache>) {
    predicate Stale(now: int, ttl: int) {
      now - created > ttl
    }
  }

  /** The queue of idle connections, those torn down so far, and the next fresh identity. */
  datatype Pool = Pool(queue: seq<Conn>, destroyed: seq<Conn>, nextId: nat)

  datatype Error = ConnectFailed

  /** Queued connections have distinct identities, all handed out before, and well-formed recency caches. */
  ghost predicate Inv(p: Pool) {
    && (forall i :: 0 <= i < |p.queue| ==> p.queue[i].id < p.nextId && Recency.Valid(p.queue[i].recent))
    && (forall i, j :: 0 <= i < j < |p.queue| ==> p.queue[i].id != p.queue[j].id)
  }

  /** Connection `id` has been handed out and is not waiting in the queue. */
  ghost predicate CheckedOut(p: Pool, id: nat) {
    id < p.nextId && forall i :: 0 <= i < |p.queue| ==> p.queue[i].id != id
  }

  /** The number of connections at the front of `q` that are too old at `now`. */
  function StalePrefix(q: seq<Conn>, now: int, ttl: int): (k: nat)
    ensures k <= |q|
    ensures forall i :: 0 <= i < k ==> q[i].Stale(now, ttl)
    ensures k < |q| ==> !q[k].Stale(now, ttl)
  {
    if |q| == 0 || !q[0].Stale(now, ttl) then 0 else 1 + StalePrefix(q[1..], now, ttl)
  }

  /** The pool after an acquisition, and the connection acquired or the connect error. */
  datatype Acquired = Acquired(pool: Pool, conn: Result<Conn, Error>)

  /**
    Acquires a connection. Stale connections are popped from the front and
    torn down; the first one young enough is handed out after its recency
    cache is collected. When the queue runs dry a new connection is opened,
    which can fail (`connectOk` is the engine's answer).
   */
  function NewCache(p: Pool, now: int, cfg: Settings, connectOk: bool): (r: Acquired)
    requires Inv(p)
    ensures Inv(r.pool)
    ensures r.conn.Ok? ==> Recency.Valid(r.conn.value.recent) && CheckedOut(r.pool, r.conn.value.id)
    ensures r.pool.nextId == p.nextId || r.pool.nextId == p.nextId + 1
    ensures r.conn.Ok? && r.pool.nextId == p.nextId ==>
      var k := |p.queue| - |r.pool.queue| - 1;
      && 0 <= k < |p.queue|
      && r.pool.queue == p.queue[k + 1..]
      && r.pool.destroyed == p.destroyed + p.queue[..k]
      && (forall i :: 0 <= i < k ==> p.queue[i].Stale(now, cfg.connectionTimeout))
      && !p.queue[k].Stale(now, cfg.connectionTimeout)
      && r.conn.value == p.queue[k].(recent := Recency.Gc(p.queue[k].recent, now))
    ensures r.conn.Err? || r.pool.nextId == p.nextId + 1 ==>
      && r.pool.queue == []
      && r.pool.destroyed == p.destroyed + p.queue
      && (forall i :: 0 <= i < |p.queue| ==> p.queue[i].Stale(now, cfg.connectionTimeout))
    ensures r.conn.Err? <==>
      !connectOk && forall i :: 0 <= i < |p.queue| ==> p.queue[i].Stale(now, cfg.connectionTimeout)
    ensures r.pool.nextId == p.nextId + 1 ==>
      r.conn == Ok(Conn(p.nextId, now, Opened, Lru.New(cfg.lruMaxCount)))
  {
    var k := StalePrefix(p.queue, now, cfg.connectionTimeout);
    if k < |p.queue| then
      var head := p.queue[k];
      assert p.queue == p.queue[..k] + [head] + p.queue[k + 1..];
      Acquired(Pool(p.queue[k + 1..], p.destroyed + p.queue[..k], p.nextId),
               Ok(head.(recent := Recency.Gc(head.recent, now))))
    else if !connectOk then
      Acquired(Pool([], p.destroyed + p.queue, p.nextId), Err(ConnectFailed))
    else
      Acquired(Pool([], p.destroyed + p.queue, p.nextId + 1),
               Ok(Conn(p.nextId, now, Opened, Lru.New(cfg.lruMaxCount))))
  }

  /** The connection after its pending changes were flushed (`flushOk` is the engine's answer). */
  function Flushed(c: Conn, flushOk: bool): Conn {
    c.(engine := FlushPending(c.engine, flushOk))
  }

  /**
    Returns a connection to the pool. The connection is flushed first; a
    connection that has seen an engine error, including a failed flush, or
    that is older than the time-to-live, is torn down; any other one goes to
    the back of the queue.
   */
  function CloseCache(p: Pool, c: Conn, now: int, ttl: int, flushOk: bool): (r: Pool)
    ensures r.nextId == p.nextId
    ensures var f := Flushed(c, flushOk);
      && f.id == c.id
      && (f.engine.hasError <==> c.engine.hasError || !flushOk)
      && (!f.engine.hasError && !c.Stale(now, ttl) ==> r.queue == p.queue + [f] && r.destroyed == p.destroyed)
      && (f.engine.hasError || c.Stale(now, ttl) ==> r.queue == p.queue && r.destroyed == p.destroyed + [f])
  {
    var f := Flushed(c, flushOk);
    if f.engine.hasError || f.Stale(now, ttl) then p.(destroyed := p.destroyed + [f])
    else p.(queue := p.queue + [f])
  }

  /** Tears down every queued connection. */
  function ClearCache(p: Pool): (r: Pool)
    ensures r.queue == [] && r.destroyed == p.destroyed + p.queue && r.nextId == p.nextId
  {
    Pool([], p.destroyed + p.queue, p.nextId)
  }

  /** Returning a checked-out connection keeps the pool well-formed. */
  lemma CloseCacheKeepsInv(p: Pool, c: Conn, now: int, ttl: int, flushOk: bool)
    requires Inv(p) && CheckedOut(p, c.id) && Recency.Valid(c.recent)
    ensures Inv(CloseCache(p, c, now, ttl, flushOk))
  {
  }

  /**
    A connection returned after an engine error or a failed flush is not in
    the queue, and the next acquisition does not hand it out again.
   */
  lemma UnhealthyNeverReacquired(p: Pool, c: Conn, cfg: Settings, released: int, later: int, flushOk: bool, connectOk: bool)
    requires Inv(p) && CheckedOut(p, c.id)
    requires c.engine.hasError || !flushOk
    ensures var q := CloseCache(p, c, released, cfg.connectionTimeout, flushOk);
      && (forall i :: 0 <= i < |q.queue| ==> q.queue[i].id != c.id)
      && CheckedOut(q, c.id)
      && var a := NewCache(q, later, cfg, connectOk);
      a.conn.Ok? ==> a.conn.value.id != c.id
  {
  }

  /** A connection whose element add failed is torn down when it is returned, never queued again. */
  lemma FailedAddNeverRequeued(p: Pool, c: Conn, setName: string, elements: seq<string>, now: int, ttl: int, flushOk: bool)
    ensures var broken := c.(engine := SetAddElements(c.engine, setName, elements, true).0);
      var q := CloseCache(p, broken, now, ttl, flushOk);
      q.queue == p.queue && |q.destroyed| == |p.destroyed| + 1 && q.destroyed[|p.destroyed|].id == c.id
  {
  }

  /**
    With no other connection waiting, a connection returned healthy and
    young enough is the one the next acquisition hands out.
   */
  lemma ReuseIdentity(p: Pool, cfg: Settings, acquired: int, released: int, later: int, connectOk: bool, again: bool)
    requires Inv(p)
    requires var a := NewCache(p, acquired, cfg, connectOk); a.conn.Ok? && a.pool.queue == []
    requires var a := NewCache(p, acquired, cfg, connectOk);
      !a.conn.value.engine.hasError
      && !a.conn.value.Stale(released, cfg.connectionTimeout)
      && !a.conn.value.Stale(later, cfg.connectionTimeout)
    ensures var a := NewCache(p, acquired, cfg, connectOk);
      var q := CloseCache(a.pool, a.conn.value, released, cfg.connectionTimeout, true);
      var b := NewCache(q, later, cfg, again);
      b.conn.Ok? && b.conn.value.id == a.conn.value.id && b.pool.queue == []
  {
  }

  /** After the pool is cleared, an acquisition can only open a new connection. */
  lemma ClearedPoolOpensFresh(p: Pool, now: int, cfg: Settings, connectOk: bool)
    requires Inv(p)
    ensures var a := NewCache(ClearCache(p), now, cfg, connectOk);
      && (a.conn.Ok? <==> connectOk)
      && (a.conn.Ok? ==> a.conn.value.id == p.nextId && a.conn.value.created == now && !a.conn.value.engine.hasError)
  {
  }
}

=== FILE: recency.dfy ===
/**
  The per-connection recency cache: for every address it remembers when the
  marker expires and how many dispatch passes recorded it. It is a soft
  circuit breaker: an address is skipped once its count reaches the retry
  threshold. A connection whose cache could not be created (a capacity that is
  not positive) carries `None` and every operation is a no-op on it.
 */
module Recency {
  import opened Wrappers
  import opened Lru
  import opened Records

  ghost predicate Valid(rc: Option<Cache>) {
    rc.Some? ==> rc.value.Valid()
  }

  /** The address-to-entry map a recency cache holds, empty for a missing cache. */
  function Entries(rc: Option<Cache>): map<string, IpEntry> {
    if rc.Some? then rc.value.values else map[]
  }

  /** Both caches are missing, or both exist with the same capacity. */
  predicate SameShape(a: Option<Cache>, b: Option<Cache>) {
    && (a.Some? <==> b.Some?)
    && (a.Some? ==> a.value.capacity == b.value.capacity)
  }

  /**
    Whether the record's address has reached the retry threshold. The lookup
    makes the address the most recently used one but changes no entry.
   */
  function LruIgnoreIp(rc: Option<Cache>, rec: Record, maxRetryTimes: int): (r: (bool, Option<Cache>))
    requires Valid(rc)
    ensures Valid(r.1) && SameShape(rc, r.1) && Entries(r.1) == Entries(rc)
    ensures r.0 <==> KeyOf(rec).Some? && KeyOf(rec).value in Entries(rc)
                     && Entries(rc)[KeyOf(rec).value].applyCount >= maxRetryTimes
    ensures rc.Some? && KeyOf(rec).Some? && KeyOf(rec).value in Entries(rc) ==>
      var c, ip := rc.value, KeyOf(rec).value;
      var i := IndexOf(c.order, ip);
      r.1 == Some(Cache(c.capacity, c.order[..i] + c.order[i + 1..] + [ip], c.values))
    ensures rc.None? || KeyOf(rec).None? || KeyOf(rec).value !in Entries(rc) ==> r.1 == rc
  {
    match rc
    case None => (false, None)
    case Some(c) =>
      match KeyOf(rec)
      case None => (false, rc)
      case Some(ip) =>
        var got := Get(c, ip);
        match got.0
        case Some(e) => (e.applyCount >= maxRetryTimes, Some(got.1))
        case None => (false, Some(got.1))
  }

  /**
    Records one completed dispatch pass for the record's address. An existing
    entry has its count raised by one and keeps its expiry; a new entry starts
    at count one and expires `timeout` after `now`. The number of rules the
    pass applied is only reported, never stored.
   */
  function LruUpdateIp(rc: Option<Cache>, rec: Record, rulesCounter: int, now: int, timeout: int): (r: Option<Cache>)
    requires Valid(rc)
    ensures Valid(r) && SameShape(rc, r)
    ensures rc.None? || KeyOf(rec).None? ==> r == rc
    ensures rc.Some? && KeyOf(rec).Some? ==>
      var c := rc.value;
      var ip := KeyOf(rec).value;
      && |r.value.order| > 0 && Last(r.value.order) == ip
      && (ip in c.values ==>
            Entries(r) == c.values[ip := IpEntry(c.values[ip].expireTime, c.values[ip].applyCount + 1)])
      && (ip !in c.values && c.Len() < c.capacity ==>
            Entries(r) == c.values[ip := IpEntry(now + timeout, 1)])
      && (ip !in c.values && c.Len() == c.capacity ==>
            Entries(r) == (c.values - {c.order[0]})[ip := IpEntry(now + timeout, 1)])
    ensures rc.Some? && KeyOf(rec).Some? ==>
      var c := rc.value;
      var ip := KeyOf(rec).value;
      && (ip in c.values ==>
            var i := IndexOf(c.order, ip); r.value.order == c.order[..i] + c.order[i + 1..] + [ip])
      && (ip !in c.values && c.Len() < c.capacity ==> r.value.order == c.order + [ip])
      && (ip !in c.values && c.Len() == c.capacity ==> r.value.order == c.order[1..] + [ip])
  {
    if rc.None? || KeyOf(rec).None? then rc
    else
      var r := RecordIp(rc.value, KeyOf(rec).value, now, timeout);
      Some(r)
  }

  /**
    `LruUpdateIp` on an existing cache and a usable address. The lookup makes
    an existing address the most recently used one; its count is then raised
    in place, which is a store of the raised entry under the same key. A
    missing address is added with a new entry.
   */
  function RecordIp(c: Cache, ip: string, now: int, timeout: int): (r: Cache)
    requires c.Valid()
    ensures r.Valid() && r.capacity == c.capacity
    ensures |r.order| > 0 && Last(r.order) == ip
    ensures ip in c.values ==>
      r.values == c.values[ip := IpEntry(c.values[ip].expireTime, c.values[ip].applyCount + 1)]
    ensures ip !in c.values && c.Len() < c.capacity ==> r.values == c.values[ip := IpEntry(now + timeout, 1)]
    ensures ip !in c.values && c.Len() == c.capacity ==>
      r.values == (c.values - {c.order[0]})[ip := IpEntry(now + timeout, 1)]
    ensures ip in c.values ==> var i := IndexOf(c.order, ip); r.order == c.order[..i] + c.order[i + 1..] + [ip]
    ensures ip !in c.values && c.Len() < c.capacity ==> r.order == c.order + [ip]
    ensures ip !in c.values && c.Len() == c.capacity ==> r.order == c.order[1..] + [ip]
  {
    var moved := Get(c, ip).1;
    TouchLast(moved.order);
    var entry := if ip in c.values then IpEntry(c.values[ip].expireTime, c.values[ip].applyCount + 1)
                 else IpEntry(now + timeout, 1);
    assert moved.values == c.values;
    assert ip !in c.values ==> moved == c;
    Add(moved, ip, entry)
  }

  /**
    The number of least recently used keys, taken from the front of `order`,
    that have expired at `now`: the collection loop stops at the first key
    whose entry expires after `now`.
   */
  function ExpiredPrefix(order: seq<string>, values: map<string, IpEntry>, now: int): (k: nat)
    requires forall i :: 0 <= i < |order| ==> order[i] in values
    ensures k <= |order|
    ensures forall i :: 0 <= i < k ==> values[order[i]].expireTime <= now
    ensures k < |order| ==> values[order[k]].expireTime > now
  {
    if |order| == 0 || values[order[0]].expireTime > now then 0
    else 1 + ExpiredPrefix(order[1..], values, now)
  }

  /**
    Lazy expiry: removes least recently used entries while they have expired
    at `now`, stopping at the first one that has not.
   */
  function Collect(c: Cache, now: int): (r: Cache)
    requires c.Valid()
    ensures r.Valid() && r.capacity == c.capacity
    ensures |r.order| <= |c.order| && r.order == c.order[|c.order| - |r.order|..]
    ensures forall i :: 0 <= i < |c.order| - |r.order| ==> c.order[i] in c.values && c.values[c.order[i]].expireTime <= now
    ensures |r.order| > 0 ==> r.order[0] in r.values && r.values[r.order[0]].expireTime > now
    ensures forall k :: k in r.values ==> k in c.values && r.values[k] == c.values[k]
    ensures forall k :: k in c.values && c.values[k].expireTime > now ==> k in r.values
    ensures forall k :: k in c.values && k !in r.values ==> c.values[k].expireTime <= now
  {
    OrderHasEntries(c);
    var n := ExpiredPrefix(c.order, c.values, now);
    ExpiredPrefixBoundary(c, now);
    SuffixValid(c, n);
    var r := Suffix(c, n);
    assert |c.order| - |r.order| == n;
    r
  }

  /** `c` without its `n` least recently used keys and their entries. */
  function Suffix(c: Cache, n: nat): Cache
    requires n <= |c.order| && forall x :: x in c.order[n..] ==> x in c.values
  {
    Cache(c.capacity, c.order[n..], Restrict(c.values, c.order[n..]))
  }

  /** Dropping least recently used keys together with their entries keeps a cache well-formed. */
  lemma SuffixValid(c: Cache, n: nat)
    requires c.Valid() && n <= |c.order| && forall x :: x in c.order[n..] ==> x in c.values
    ensures Suffix(c, n).Valid()
  {
    SuffixDistinct(c.order, n);
    ElemsIn(c.order[n..]);
  }

  /** The entries of `values` whose keys occur in `keys`. */
  function Restrict(values: map<string, IpEntry>, keys: seq<string>): (r: map<string, IpEntry>)
    requires forall x :: x in keys ==> x in values
    ensures forall x :: x in r <==> x in keys
    ensures forall x :: x in r ==> x in values && r[x] == values[x]
  {
    map x | x in keys :: values[x]
  }

  /** What survives a collection is distinct and holds every unexpired key. */
  lemma ExpiredPrefixBoundary(c: Cache, now: int)
    requires c.Valid() && forall i :: 0 <= i < |c.order| ==> c.order[i] in c.values
    ensures var kept := c.order[ExpiredPrefix(c.order, c.values, now)..];
      && Distinct(kept)
      && (forall x :: x in kept ==> x in c.values)
      && forall k :: k in c.values && c.values[k].expireTime > now ==> k in kept
  {
    var n := ExpiredPrefix(c.order, c.values, now);
    KeysInOrder(c);
    SuffixDistinct(c.order, n);
    forall k | k in c.values && c.values[k].expireTime > now ensures k in c.order[n..] {
      UnexpiredKept(c.order, c.values, now, k);
    }
  }

  /** Dropping a prefix keeps a sequence free of repeats. */
  lemma SuffixDistinct(s: seq<string>, n: nat)
    requires n <= |s| && Distinct(s)
    ensures Distinct(s[n..])
  {
  }

  /** An unexpired key lies beyond the expired prefix. */
  lemma UnexpiredKept(order: seq<string>, values: map<string, IpEntry>, now: int, k: string)
    requires forall i :: 0 <= i < |order| ==> order[i] in values
    requires k in order && k in values && values[k].expireTime > now
    ensures k in order[ExpiredPrefix(order, values, now)..]
  {
  }

  /** The garbage collection run on a connection taken from the pool. */
  function Gc(rc: Option<Cache>, now: int): (r: Option<Cache>)
    requires Valid(rc)
    ensures Valid(r) && SameShape(rc, r)
    ensures forall k :: k in Entries(r) ==> k in Entries(rc) && Entries(r)[k] == Entries(rc)[k]
    ensures forall k :: k in Entries(rc) && Entries(rc)[k].expireTime > now ==> k in Entries(r)
    ensures forall k :: k in Entries(rc) && k !in Entries(r) ==> Entries(rc)[k].expireTime <= now
    ensures rc.Some? ==> r == Some(Collect(rc.value, now))
  {
    match rc
    case None => None
    case Some(c) => Some(Collect(c, now))
  }

  /** When every entry has expired, collection forgets all of them. */
  lemma CollectForgetsExpired(c: Cache, now: int)
    requires c.Valid()
    requires forall k :: k in c.values ==> c.values[k].expireTime <= now
    ensures Collect(c, now).values == map[]
  {
  }

  /** One completed pass of the dispatcher: when it ended and how many rules it applied. */
  datatype Update = Update(at: int, applied: int)

  /** The recency cache after recording `updates` in order for the same record. */
  function UpdateMany(rc: Option<Cache>, rec: Record, updates: seq<Update>, timeout: int): (r: Option<Cache>)
    requires Valid(rc)
    ensures Valid(r) && SameShape(rc, r)
    decreases |updates|
  {
    if |updates| == 0 then rc
    else UpdateMany(LruUpdateIp(rc, rec, updates[0].applied, updates[0].at, timeout), rec, updates[1..], timeout)
  }

  /**
    Every recorded pass raises an existing address's count by exactly one,
    whatever the passes applied, and never moves its expiry.
   */
  lemma {:induction false} CountGrowth(rc: Option<Cache>, rec: Record, updates: seq<Update>, timeout: int)
    requires Valid(rc) && KeyOf(rec).Some? && KeyOf(rec).value in Entries(rc)
    ensures var ip, r := KeyOf(rec).value, UpdateMany(rc, rec, updates, timeout);
      && ip in Entries(r)
      && Entries(r)[ip] == IpEntry(Entries(rc)[ip].expireTime, Entries(rc)[ip].applyCount + |updates|)
    decreases |updates|
  {
    if |updates| > 0 {
      var next := LruUpdateIp(rc, rec, updates[0].applied, updates[0].at, timeout);
      CountGrowth(next, rec, updates[1..], timeout);
    }
  }

  /**
    `n` passes recorded for a new address leave it at count `n`, expiring
    `timeout` after the first pass; from then on it is ignored exactly when
    `n` has reached the retry threshold.
   */
  lemma CountFromFirstPass(rc: Option<Cache>, rec: Record, updates: seq<Update>, timeout: int, maxRetryTimes: int)
    requires Valid(rc) && rc.Some? && KeyOf(rec).Some? && KeyOf(rec).value !in Entries(rc)
    requires |updates| > 0
    ensures var ip, r := KeyOf(rec).value, UpdateMany(rc, rec, updates, timeout);
      && ip in Entries(r)
      && Entries(r)[ip] == IpEntry(updates[0].at + timeout, |updates|)
      && (LruIgnoreIp(r, rec, maxRetryTimes).0 <==> |updates| >= maxRetryTimes)
  {
    var ip := KeyOf(rec).value;
    var first := LruUpdateIp(rc, rec, updates[0].applied, updates[0].at, timeout);
    assert ip in Entries(first) && Entries(first)[ip] == IpEntry(updates[0].at + timeout, 1);
    assert UpdateMany(rc, rec, updates, timeout) == UpdateMany(first, rec, updates[1..], timeout);
    CountGrowth(first, rec, updates[1..], timeout);
  }
}

=== FILE: records.dfy ===
/** The answer records of a DNS response, as far as the plugin looks at them. */
module Records {
  import opened Wrappers

  /**
    An IPv4 address record, an IPv6 address record, or any other record
    kind. Addresses are carried in their textual form.
   */
  datatype Record =
    | A(name: string, ip: string)
    | AAAA(name: string, ip: string)
    | Other(name: string, rrtype: nat)
  {
    predicate IsAddress() {
      A? || AAAA?
    }
  }

  /** The recency-cache key of a record: its non-empty address text, for address records only. */
  function KeyOf(rec: Record): (r: Option<string>)
    ensures r.Some? <==> rec.IsAddress() && rec.ip != ""
    ensures r.Some? ==> r.value == rec.ip
  {
    match rec
    case A(_, ip) => if |ip| == 0 then None else Some(ip)
    case AAAA(_, ip) => if |ip| == 0 then None else Some(ip)
    case Other(_, _) => None
  }
}

=== FILE: seqs.dfy ===
/**
  Small facts about sequence concatenation, proved where no other quantified
  facts are in scope so that callers can use them cheaply.
 */
module Seqs {

  lemma EmptyConcat<T>(s: seq<T>)
    ensures [] + s == s
  {
  }

  lemma ConcatEmpty<T>(s: seq<T>)
    ensures s + [] == s
  {
  }

  lemma HeadTail<T>(s: seq<T>)
    requires |s| > 0
    ensures s == [s[0]] + s[1..]
  {
  }

  lemma InitLast<T>(s: seq<T>)
    requires |s| > 0
    ensures s == s[..|s| - 1] + [s[|s| - 1]]
  {
  }

  lemma SplitAt<T>(s: seq<T>, i: nat)
    requires i < |s|
    ensures s == s[..i] + [s[i]] + s[i + 1..]
  {
  }

  lemma TakeDrop<T>(s: seq<T>, j: nat)
    requires j <= |s|
    ensures s[..j] + s[j..] == s
  {
  }

  lemma TakeOneMore<T>(s: seq<T>, j: nat)
    requires j < |s|
    ensures s[..j] + [s[j]] == s[..j + 1]
  {
  }

  lemma ConcatAssoc<T>(x: seq<T>, y: seq<T>, z: seq<T>)
    ensures x + (y + z) == (x + y) + z
  {
  }
}

=== FILE: tables.dfy ===
/**
  The per-connection view of the packet-filter engine: the cache of table
  handles per address family, the sticky error flag, and a log of the calls
  made to the engine. The engine itself is an oracle: what a listing returns
  is an input, and adding a table hands back the table it was given.
 */
module Tables {
  import opened Wrappers

  /** An nftables table family, a byte on the wire. */
  type Family = x: int | 0 <= x < 256

  const Unspecified: Family := 0
  const INet: Family := 1
  const IPv4: Family := 2
  const ARP: Family := 3
  const Netdev: Family := 5
  const Bridge: Family := 7
  const IPv6: Family := 10

  /** The families the engine knows by name. */
  const NamedFamilies: set<Family> := {Unspecified, INet, IPv4, IPv6, ARP, Netdev, Bridge}

  /** The name a family is logged under. */
  function GetFamilyName(f: Family): (r: string)
    ensures r == "unknown" <==> f !in NamedFamilies
  {
    if f == Unspecified then "unspecified"
    else if f == INet then "inet"
    else if f == IPv4 then "ipv4"
    else if f == IPv6 then "ipv6"
    else if f == ARP then "arp"
    else if f == Netdev then "netdev"
    else if f == Bridge then "bridge"
    else "unknown"
  }

  datatype Table = Table(family: Family, name: string)

  /** The cached handle of one table (the handles of its sets are not part of this model). */
  datatype TableEntry = TableEntry(table: Table)

  /** A call made to the engine. */
  datatype EngineCall =
    | ListTables(family: Family)
    | AddTable(table: Table)
    | AddElements(setName: string, elements: seq<string>)
    | Flush

  /** The state of one connection that the engine calls touch. */
  datatype Engine = Engine(
    tables: map<Family, map<string, TableEntry>>,
    hasError: bool,
    calls: seq<EngineCall>)

  /** The two table caches agree on every family other than `family`. */
  ghost predicate SameElsewhere(a: map<Family, map<string, TableEntry>>, b: map<Family, map<string, TableEntry>>, family: Family) {
    forall f :: f != family ==> (f in a <==> f in b) && (f in a ==> a[f] == b[f])
  }

  /** A connection's engine state when it is opened. */
  const Opened: Engine := Engine(map[], false, [])

  function ListedNames(listing: Option<seq<Table>>): set<string> {
    if listing.Some? then set t | t in listing.value :: t.name else {}
  }

  /** `m` extended with one entry per listed table, keyed by the table's name. */
  function IndexTables(m: map<string, TableEntry>, listed: seq<Table>): (r: map<string, TableEntry>)
    ensures r.Keys == m.Keys + set t | t in listed :: t.name
    ensures forall n :: n in r ==>
      (n in m && r[n] == m[n]) || exists t :: t in listed && t.name == n && r[n] == TableEntry(t)
    decreases |listed|
  {
    if |listed| == 0 then m
    else
      var r := IndexTables(m[listed[0].name := TableEntry(listed[0])], listed[1..]);
      assert (set t | t in listed :: t.name) == {listed[0].name} + set t | t in listed[1..] :: t.name;
      assert forall t :: t in listed[1..] ==> t in listed;
      assert listed[0] in listed;
      r
  }

  /**
    The engine state once `family`'s table cache may be relied on: a family
    without cached tables is listed once, and whatever the listing returns is
    cached; a family with cached tables is left alone.
   */
  function ListTablesOnce(e: Engine, family: Family, listing: Option<seq<Table>>): (r: Engine)
    ensures family in r.tables
    ensures SameElsewhere(r.tables, e.tables, family)
    ensures r.hasError == e.hasError
    ensures family in e.tables && |e.tables[family]| > 0 ==> r == e
    ensures family !in e.tables || |e.tables[family]| == 0 ==>
      && r.calls == e.calls + [ListTables(family)]
      && r.tables[family].Keys == ListedNames(listing)
  {
    if family in e.tables && |e.tables[family]| > 0 then e
    else Engine(e.tables[family := Found(listing)], e.hasError, e.calls + [ListTables(family)])
  }

  /** The table cache a listing yields: one entry per listed table, none when the listing failed. */
  function Found(listing: Option<seq<Table>>): (m: map<string, TableEntry>)
    ensures m.Keys == ListedNames(listing)
    ensures forall n :: n in m ==> listing.Some? && exists t :: t in listing.value && t.name == n && m[n] == TableEntry(t)
  {
    if listing.None? then map[]
    else
      var m := IndexTables(map[], listing.value);
      assert m.Keys == ListedNames(listing);
      m
  }

  /** The result of resolving a table: the updated engine state and the table's cache entry. */
  datatype Resolved = Resolved(engine: Engine, entry: TableEntry)

  /**
    The cached entry of table `name` in `family`. The family's tables are
    listed only while the cache holds none for it, and the table is added
    only when it is still unknown after that.
   */
  function MutableNftablesTable(e: Engine, family: Family, name: string, listing: Option<seq<Table>>): (r: Resolved)
    ensures family in r.engine.tables && name in r.engine.tables[family]
    ensures r.entry == r.engine.tables[family][name]
    ensures SameElsewhere(r.engine.tables, e.tables, family)
    ensures r.engine.hasError == e.hasError
    ensures family in e.tables ==> forall n :: n in e.tables[family] ==>
      n in r.engine.tables[family] && r.engine.tables[family][n] == e.tables[family][n]
    ensures var listed := family !in e.tables || |e.tables[family]| == 0;
      var added := name !in (if listed then ListedNames(listing) else e.tables[family].Keys);
      && r.engine.calls == e.calls + (if listed then [ListTables(family)] else [])
                                   + (if added then [AddTable(Table(family, name))] else [])
      && (added ==> r.entry == TableEntry(Table(family, name)))
    ensures family in e.tables && name in e.tables[family] ==> r == Resolved(e, e.tables[family][name])
    ensures family !in e.tables || |e.tables[family]| == 0 ==>
      r.engine.tables[family].Keys == ListedNames(listing) + {name}
  {
    var l := ListTablesOnce(e, family, listing);
    var known := l.tables[family];
    if name in known then
      Resolved(l, known[name])
    else
      var entry := TableEntry(Table(family, name));
      Resolved(Engine(l.tables[family := known[name := entry]], l.hasError, l.calls + [AddTable(entry.table)]), entry)
  }

  /** A second resolution of the same table makes no engine call and changes nothing. */
  lemma ResolveTwice(e: Engine, family: Family, name: string, first: Option<seq<Table>>, second: Option<seq<Table>>)
    ensures var once := MutableNftablesTable(e, family, name, first);
      MutableNftablesTable(once.engine, family, name, second) == once
  {
  }

  /** After any resolution in a family, no later resolution in it lists the family again. */
  lemma ListedAtMostOnce(e: Engine, family: Family, name: string, other: string, first: Option<seq<Table>>, second: Option<seq<Table>>)
    ensures var once := MutableNftablesTable(e, family, name, first);
      var twice := MutableNftablesTable(once.engine, family, other, second);
      twice.engine.calls == once.engine.calls ||
      twice.engine.calls == once.engine.calls + [AddTable(Table(family, other))]
  {
  }

  /** A table the listing returned is never added later: resolving it afterwards makes no call. */
  lemma ListedNeverAdded(e: Engine, family: Family, name: string, other: string, first: Option<seq<Table>>, second: Option<seq<Table>>)
    requires family !in e.tables || |e.tables[family]| == 0
    requires other in ListedNames(first)
    ensures var once := MutableNftablesTable(e, family, name, first);
      && other in once.engine.tables[family]
      && MutableNftablesTable(once.engine, family, other, second) == Resolved(once.engine, once.engine.tables[family][other])
  {
  }

  /**
    Adds elements to a set through the engine. A failed add marks the
    connection as broken; a successful one leaves the mark as it was.
   */
  function SetAddElements(e: Engine, setName: string, elements: seq<string>, failed: bool): (r: (Engine, Outcome<string>))
    ensures r.0.hasError <==> e.hasError || failed
    ensures r.1.Fail? <==> failed
    ensures r.0.tables == e.tables
    ensures r.0.calls == e.calls + [AddElements(setName, elements)]
  {
    if failed then (e.(hasError := true, calls := e.calls + [AddElements(setName, elements)]), Fail("add elements failed"))
    else (e.(calls := e.calls + [AddElements(setName, elements)]), Pass)
  }

  /**
    Sends the connection's pending changes to the engine. A failed flush
    marks the connection as broken; a successful one leaves the mark as it was.
   */
  function FlushPending(e: Engine, ok: bool): (r: Engine)
    ensures r.hasError <==> e.hasError || !ok
    ensures r.tables == e.tables
    ensures r.calls == e.calls + [Flush]
  {
    Engine(e.tables, e.hasError || !ok, e.calls + [Flush])
  }
}

=== FILE: wrappers.dfy ===
/** Failure-carrying datatypes shared by the modules of this model. */
module Wrappers {

  /** A value that may be absent (Go's nil pointer or missing map entry). */
  datatype Option<+T> = None | Some(value: T)

  /** A value or the error that prevented it (Go's `(T, error)` pair). */
  datatype Result<+T, +E> = Ok(value: T) | Err(error: E)

  /** The outcome of an operation that returns only an error. */
  datatype Outcome<+E> = Pass | Fail(error: E)
}
